=== FILE: README.md ===
# weather-widget decision logic in Dafny

`weather-widget.js` defines a browser custom element that shows the current weather for a configured `location` as a stylised window. It shows day and night states and animated effects. Most of the file is DOM and CSS templating and `fetch` plumbing. This project models the pure decisions inside it and proves properties of them:

- **Conditions** (`conditions.dfy`): the table from Open-Meteo WMO weather codes to condition records `{name, dayClass, nightClass, dayEffects, nightEffects}`. Unknown codes fall back to the code-1 entry. The file also holds the mock fallback condition and the class and effect keys the stylesheet and effect switch understand.
- **DayNight** (`day_night.dfy`): the fixed night window (hour ≥ 19 or hour < 6). It covers the three branches that supply the hour: no timezone, a timezone that projects, and a timezone whose projection throws. It also covers how `displayWeather` picks the day or night class and effect, adds the ` night` class suffix, and relabels "Clear".
- **Timezones** (`timezones.dfy`): `estimateTimezone`. It has four latitude/longitude boxes with longitude bands. Outside them it uses `Etc/GMT±n` with `n = Math.round(lon / 15)`, clamped to ±12. The North America branch tests `lon >= -130` first. So every point of that box east of 130°W gets `America/Anchorage`, and everything west of it gets `America/New_York`. The Los Angeles, Denver and Chicago returns are dead code. The model keeps this behaviour and proves it.
- **Geocoding** (`geocoding.dfy`): the short-name chains built from the Nominatim, OpenCage and Positionstack answers. It also has the rule "provider timezone, else estimate", and `geocodeWithFallbacks` as a combinator over a list of provider outcomes (`Returned(Some r)`, `Returned(None)` for a falsy value, `Threw`). The load step turns the first answer into the kept name and timezone.
- **Weather** (`weather.dfy`): the `units` setting (default "F"), the unit requested from the service and the unit label displayed, and the mock data (72 or 22, wind 8). It models fetching, where any failure gives the mock data, and the texts of the weather and error views.
- **Widget** (`widget.dfy`): one `loadWeatherData` cycle composed from the parts above. The state kept between cycles (timezone, location name) is an explicit value.
- **JsValues** (`js_values.dfy`): the JavaScript semantics the logic relies on:
  - truthiness of optional strings and `||` chains;
  - `Math.round` as ⌊x + ½⌋ and `Math.max(-12, Math.min(12, x))`;
  - `split(',')[0]` and `trim()`;
  - decimal printing of integers in template literals.

Inputs the code reads from its host are parameters of the model:
- the hour of "now", in the kept timezone and on the host clock;
- what each geocoder and the weather service return;
- the formatted local time.

Latitude and longitude are `real`.

Points of the code worth noting:
- Fog is drawn with the `cloudy` class and `clouds` effect. No `foggy` class is used.
- Only two North American zones are reachable.
- `units` is read once before the awaits, to request the unit, and again in `displayWeather`, to label it. The error view likewise re-reads `location`. An attribute change while a cycle is loading starts no new cycle. So a reading fetched in one unit can be shown with the other unit's label. The model takes the display-time reads as separate inputs.
- The aggregate geocoding error is raised only when the last provider throws. If the last provider returns a falsy value, the loop ends with `undefined`, and the load step then fails reading `.name` of it (`UndefinedLocation`).

## Model

| member | source | states |
|---|---|---|
| Conditions.MapWeatherCode | weather-widget.js:288-308 | Every integer code yields one of the eleven table records, and day class equals night class. The result is the "Partly Cloudy" fallback exactly when the code is 1, 2 or not one of the 15 listed codes. "Partly Cloudy" is never produced by any other record. |
| Conditions.CodeTableShape | weather-widget.js:289-305 | The table's keys are exactly the 15 listed codes (0, 1, 2, 3, 45, 48, 51, 53, 55, 71, 73, 75, 95, 96, 99), and its values are exactly the eleven distinct records. |
| Conditions.UnlistedCodesFallBack | weather-widget.js:271-307 | Any unlisted code (61, 80, ...) yields the code-1 record, which is exactly the mock fallback condition: "Partly Cloudy", sun-clouds by day, moon-clouds by night. |
| Conditions.DayNightEffectsDiffer | weather-widget.js:290-304 | Day and night effects differ exactly for "Clear" (sun/moon) and "Partly Cloudy" (sun-clouds/moon-clouds). |
| Conditions.SharedEntries | weather-widget.js:289-305 | Two listed codes yield the same record if and only if they are equal or both lie in one of the groups 1-2, 45-48 or 95-96-99. Every other listed code has a record of its own. |
| Conditions.NameDeterminesCondition | weather-widget.js:290-304 | A classified condition's name is one of the table names, and equal names mean equal records. |
| Conditions.ClassNamesStyled | weather-widget.js:528-575 | Every visual class has both a day rule and a `.night` rule in the stylesheet, and distinct classes have distinct names. |
| Conditions.EffectNamesSwitched | weather-widget.js:396-424 | Every effect key has a case in the effect switch, and distinct effects have distinct keys. |
| Conditions.ClassifierTotal | weather-widget.js:288-308 | For every code, the classes and effects of the result are ones the stylesheet and the effect switch handle. Nothing comes out undefined. |
| DayNight.NightIsWrappedWindow | weather-widget.js:313 | The hour test `h >= 19 or h < 6` is the 11-hour window that starts at 19:00 on a 24-hour dial. |
| DayNight.NightBoundaries | weather-widget.js:320 | 18 is day, 19 is night, 5 is night, 6 is day. |
| DayNight.ClockHour | weather-widget.js:310-326 | The hour read is the projected hour when a timezone is set and projection works, and the host clock's hour otherwise. |
| DayNight.IsNightTime | weather-widget.js:310-326 | All three branches (no timezone, projected, projection threw) apply the same threshold to the hour `ClockHour` selects. |
| DayNight.DisplayLabel | weather-widget.js:367-369 | The label differs from the name exactly when the name is "Clear". It is then "Clear Night" at night and "Sunny" by day. |
| DayNight.DayViewClassUntagged | weather-widget.js:364 | No day class string ends in " night". |
| DayNight.Present | weather-widget.js:360-369 | Night takes both night fields and day takes both day fields, with no mixing. The view class is "outside-view " followed by the selected class, plus " night" exactly at night and nothing else. |
| DayNight.SelectionFollowsHour | weather-widget.js:358-364 | For every code and hour, the selection gives the night fields for a night hour and the day fields otherwise, and the class written into the view is that chosen class, which the stylesheet styles. |
| DayNight.LabelsKeepNamesApart | weather-widget.js:367-369 | The bare "Clear" is never shown, and two table records with the same shown label are the same record. |
| Timezones.FirstBandIsEarliest | weather-widget.js:196-217 | The band lookup returns the zone of the earliest band whose inclusive upper bound reaches the longitude. |
| Timezones.FirstBandBeyond | weather-widget.js:196-217 | When no band reaches the longitude, the lookup returns the zone east of the last band. |
| Timezones.ThreeBands | weather-widget.js:197-210 | A three-band lookup is the if-chain over the three bounds. |
| Timezones.EuropeFollowsBands | weather-widget.js:197-202 | Inside the Europe box the estimate is the band zone: London up to 5°, Paris up to 15°, Berlin up to 25°, else Moscow. |
| Timezones.AsiaFollowsBands | weather-widget.js:205-210 | Inside the Asia box the estimate is the band zone: Kolkata up to 75°, Bangkok up to 105°, Shanghai up to 125°, else Tokyo. |
| Timezones.OceaniaFollowsBands | weather-widget.js:213-217 | Inside the Australia box the estimate is the band zone: Perth up to 130°, Adelaide up to 145°, else Sydney. |
| Timezones.NorthAmericaTwoZones | weather-widget.js:187-194 | Inside the North America box the estimate is Anchorage when lon ≥ -130 and New York otherwise. |
| Timezones.UnreachableZones | weather-widget.js:189-193 | No coordinates give America/Los_Angeles, America/Denver or America/Chicago. |
| Timezones.BoxesDisjoint | weather-widget.js:187-217 | The four boxes are pairwise disjoint, so the order of the tests does not matter. |
| Timezones.EtcZoneName | weather-widget.js:221 | The name written for an offset reads back, with IANA's inverted sign, as that offset. It starts "Etc/GMT-" for zero and eastern offsets and "Etc/GMT+" for western ones. |
| Timezones.FallbackZone | weather-widget.js:219-221 | The fallback names a whole-hour zone between 12 hours west and 12 hours east. For lon/15 in [-12.5, 12.5) its offset is the hour nearest lon/15, with halves rounded east. From 11.5 up it is 12, and below -11.5 it is -12. |
| Timezones.FallbackIsNearestHour | weather-widget.js:184-221 | Outside every box, the estimate's offset is within ±12 hours. For lon/15 in [-12.5, 12.5) it is the whole hour nearest lon/15, with halves rounded east. Beyond that it is the nearer bound: 12 from lon/15 = 11.5 upward, and -12 below -11.5. |
| Timezones.EastZoneListed | weather-widget.js:221 | "Etc/GMT-0" to "Etc/GMT-12" are all in the fixed list. |
| Timezones.WestZoneListed | weather-widget.js:221 | "Etc/GMT+1" to "Etc/GMT+12" are all in the fixed list. |
| Timezones.EtcZoneListed | weather-widget.js:220-221 | Every clamped offset names a listed zone. |
| Timezones.SmallNatStrings | weather-widget.js:221 | Offsets 0 to 9 print as their single digit, and 10 to 12 print as "1" followed by the units digit. |
| Timezones.EstimateTimezone | weather-widget.js:182-222 | The estimate is always one of 13 named zones or 25 whole-hour zones, so it is never empty. |
| JsValues.Or | weather-widget.js:52 | JavaScript `or` of two operands yields the first when it is present and non-empty, and the second as it is otherwise. It is truthy iff either operand is. |
| JsValues.OrChain | weather-widget.js:171-179 | A chain yields the first truthy operand, or the last operand unchanged when no other is truthy. |
| JsValues.JsRound | weather-widget.js:184 | `Math.round` gives the integer within [x - ½, x + ½), which rounds halves up. |
| JsValues.Clamp | weather-widget.js:220 | The clamp lies in [lo, hi], keeps values inside it, and maps values outside it to the nearer bound. |
| JsValues.FirstSegment | weather-widget.js:168 | `split(',')[0]` is the longest comma-free prefix. |
| JsValues.TrimStart | weather-widget.js:168 | Removes exactly the leading whitespace run. |
| JsValues.TrimEnd | weather-widget.js:168 | Removes exactly the trailing whitespace run. |
| JsValues.Trim | weather-widget.js:168 | The trimmed string is the middle slice of the input: everything before it and after it is whitespace, and it is empty or starts and ends with a non-whitespace character. |
| JsValues.TrimUnique | weather-widget.js:168 | Any slice of the input with only whitespace around it and no whitespace at either end is the trimmed string, so the contract of `Trim` determines its result. |
| JsValues.TrimIdempotent | weather-widget.js:179 | Trimming twice is trimming once. |
| JsValues.NatToString | weather-widget.js:221 | A number prints as decimal digits with no leading zero. |
| JsValues.IntToString | weather-widget.js:373 | A negative number prints as "-" and its magnitude's digits. Other numbers print as their digits. |
| JsValues.NatToStringRoundTrip | weather-widget.js:221 | Reading a printed number back gives the number. |
| JsValues.NatToStringInjective | weather-widget.js:221 | Distinct numbers print differently, so distinct offsets give distinct zone names. |
| Geocoding.AddressFields | weather-widget.js:171-178 | The preference order has eight fields. |
| Geocoding.ExtractLocationName | weather-widget.js:165-180 | With no address, the name is the trimmed first comma segment of the display name. Otherwise it is the first non-empty of city, town, village, municipality, hamlet, suburb, county and state, else that trimmed segment. |
| Geocoding.OpenCageName | weather-widget.js:110 | The name is city, town, village or county in that order, else the untrimmed first comma segment of the formatted address. |
| Geocoding.PositionstackName | weather-widget.js:160 | The name is locality, else administrative area, else the `name` field as it is, possibly missing. |
| Geocoding.ChooseTimezone | weather-widget.js:52 | The timezone is the provider's non-empty value, else the coordinate estimate. It is never empty. |
| Geocoding.TryProviders | weather-widget.js:76-90 | The result is the first provider's value in order. It is the aggregate error exactly when none succeeded and the last threw, and `undefined` exactly when none succeeded and the last returned a falsy value (or there are no providers). |
| Geocoding.GeocodeWithFallbacks | weather-widget.js:69-91 | The same outcome over the three providers, with the error text naming the location. |
| Geocoding.ProvidersCalled | weather-widget.js:76-83 | Providers are called up to and including the first that succeeds, and all of them when none does. |
| Geocoding.LaterProvidersIrrelevant | weather-widget.js:79-83 | Providers after the first success cannot change the result. |
| Geocoding.ThrowingProvidersNeverUndefined | weather-widget.js:93-163 | The three providers throw instead of returning nothing. With such providers the fallback never yields `undefined`. |
| Geocoding.LoadLocation | weather-widget.js:37-52 | Nothing happens without a location attribute. Otherwise the first provider answer gives the kept name and a non-empty timezone. The step ends in the aggregate error, carrying the location, exactly when no provider succeeded and the last one threw. It ends in the `undefined` read exactly when no provider succeeded and the last returned a falsy value, or there are none. |
| Weather.EffectiveUnits | weather-widget.js:38 | The units are the attribute when it is set and non-empty, and "F" otherwise. |
| Weather.RequestedUnit | weather-widget.js:225 | The service is asked for Fahrenheit exactly when the units are "F", and Celsius otherwise. |
| Weather.UnitLabel | weather-widget.js:357 | The label is "°F" exactly when the units are "F", and "°C" otherwise. |
| Weather.DisplayedUnitMatchesRequest | weather-widget.js:356-357 | For one value of the `units` attribute, the label chosen for display agrees with the unit requested at line 225. An absent attribute shows °F. |
| Weather.MockWeatherData | weather-widget.js:271-286 | The mock temperature is 72 exactly when the units are "F" and 22 otherwise. Wind is 8, the condition is the code-1 record, and the kept timezone is unchanged. |
| Weather.FetchWeather | weather-widget.js:224-269 | A body with current weather is classified by its code, and its non-empty timezone replaces the kept one. Any failure gives the mock data with the timezone untouched. The data's timezone always equals the kept one. The request asks for Fahrenheit exactly when the setting is "F", and Celsius otherwise. |
| Weather.LocationLine | weather-widget.js:372 | The location line is the kept name, else "Unknown". |
| Weather.DisplayWeather | weather-widget.js:355-378 | The view class, effect and label come from the day/night selection. The temperature text is the printed number followed by the current unit label. |
| Weather.DisplayError | weather-widget.js:381-391 | The error view shows the message, then the kept name, else the `location` attribute as read at display time, else "Unknown", with "--°" and "Unable to load". |
| Widget.LoadWeatherData | weather-widget.js:33-67 | A cycle without a location changes nothing. It shows weather exactly when some geocoder succeeded. An error leaves the kept state alone. After shown weather a timezone is always kept, and the view is tagged night exactly when the hour read is a night hour. The temperature carries the label of the `units` setting read at display time. The recorded request unit comes from the setting read when the cycle starts. When some geocoder succeeds, the cycle keeps the first answer's name and the fetched timezone. It shows that name, the fetched condition's label for the hour read, and the fetched temperature with the display-time unit label. An error view shows the aggregate error when the last geocoder threw, and the host's `undefined`-read error otherwise. |
| Widget.ShownWeatherUsesZoneHour | weather-widget.js:310-320 | After a cycle that shows weather, the night test reads the projected hour whenever projection works. |
| Widget.ShownUnitMatchesRequest | weather-widget.js:355-357 | When the `units` setting reads the same at fetch time and at display time, the temperature is labelled °F exactly when the cycle's request asked for Fahrenheit. |
| Widget.UnitChangeMidCycleMislabels | weather-widget.js:38-56 | When `units` reads "F" as a cycle starts and "C" when it displays, the cycle's request asks for Fahrenheit, yet the reading is labelled °C. |
| Widget.RealGeocodersEndCleanly | weather-widget.js:47-63 | With providers that throw rather than return nothing, a cycle ends with the weather view or with the aggregate geocoding error. |

## Left out

- Network I/O is not modelled: the `fetch` calls, URL building, API keys, the one-second Nominatim delay and JSON parsing (weather-widget.js:93-163, 224-257). Provider and service answers are inputs.
- Time zone projection and formatting through `Date`, `toLocaleString` and `toLocaleTimeString` (weather-widget.js:317-319, 328-353) are host library calls. The projected hour, the host hour and the formatted time are inputs. Projection failure is `None`.
- DOM and shadow-root rendering, the stylesheet text, the markup `addWeatherEffects` writes and the `Math.random` placement of rain and snow (weather-widget.js:371-452, 466-834) are not modelled. Only the class and effect keys and the texts are.
- The `loadingState` re-entrancy gate, the 60-second `setInterval` refresh and the custom-element lifecycle callbacks (weather-widget.js:15-35, 454-464) are event-loop plumbing.
- Logging through `console.log`, `console.warn` and `console.error` (for example weather-widget.js:45, 57, 62, 78, 228, 272, 322) is not modelled. It has no effect on what is shown or kept.
- Widget.UnitChangeMidCycleMislabels: that an attribute change during a load starts no new cycle (weather-widget.js:28) is not stated by any contract. The lemma takes the two differing reads of `units` as given.
- Weather.FetchWeather: `Math.round` of the service's temperature and wind (weather-widget.js:264-266) is float handling. The model takes both as already-rounded integers.
- Conditions.MapWeatherCode: codes are integers. A code that is not an integer or is missing from the body is not modelled. In JavaScript that lookup yields `undefined` and falls back to code 1 like any unlisted code.
- Timezones.EstimateTimezone: coordinates are exact reals. Floating-point rounding at band edges and NaN coordinates are not modelled. NaN would fail every comparison and print "Etc/GMT+NaN".
- Geocoding.ExtractLocationName: `display_name` is always a string. A missing one throws a TypeError in JavaScript when the fallback is reached.

=== FILE: conditions.dfy ===
/** The condition classifier: the fixed table from Open-Meteo WMO weather
    codes to the condition record the widget renders, the mock fallback
    condition, and the CSS class and effect names those records carry. */
module Conditions {
  /** The visual classes of the outside view. */
  datatype VisualClass = Sunny | PartlyCloudy | Cloudy | Rainy | Snowy | Stormy

  /** The particle and sky effects the window can show. */
  datatype Effect = Sun | Moon | Clouds | SunClouds | MoonClouds | Rain | Snow | Lightning

  /** A condition record: display name, class and effect by day and by night. */
  datatype Condition = Condition(
    name: string,
    dayClass: VisualClass,
    nightClass: VisualClass,
    dayEffects: Effect,
    nightEffects: Effect)

  /** The CSS class name the source writes for each visual class. */
  function ClassName(c: VisualClass): string {
    match c
    case Sunny => "sunny"
    case PartlyCloudy => "partly-cloudy"
    case Cloudy => "cloudy"
    case Rainy => "rainy"
    case Snowy => "snowy"
    case Stormy => "stormy"
  }

  /** The effect key the source writes for each effect. */
  function EffectName(e: Effect): string {
    match e
    case Sun => "sun"
    case Moon => "moon"
    case Clouds => "clouds"
    case SunClouds => "sun-clouds"
    case MoonClouds => "moon-clouds"
    case Rain => "rain"
    case Snow => "snow"
    case Lightning => "lightning"
  }

  /** The class names for which the stylesheet has both a day rule
      (`.sunny`) and a night rule (`.sunny.night`). */
  const StyledClassNames: set<string> :=
    {"sunny", "cloudy", "rainy", "snowy", "stormy", "partly-cloudy"}

  /** The effect keys that have a case in the effect switch; any other key
      falls through it and draws nothing. */
  const SwitchedEffectNames: set<string> :=
    {"sun", "moon", "clouds", "sun-clouds", "moon-clouds", "rain", "snow", "lightning"}

  /** Every visual class has a stylesheet rule by day and by night, and
      distinct classes have distinct names. */
  lemma ClassNamesStyled(c: VisualClass, d: VisualClass)
    ensures ClassName(c) in StyledClassNames
    ensures ClassName(c) == ClassName(d) ==> c == d
  {
  }

  /** Every effect has a case in the effect switch, and distinct effects
      have distinct keys. */
  lemma EffectNamesSwitched(e: Effect, f: Effect)
    ensures EffectName(e) in SwitchedEffectNames
    ensures EffectName(e) == EffectName(f) ==> e == f
  {
  }

  const ClearSky := Condition("Clear", Sunny, Sunny, Sun, Moon)
  const PartlyCloudySky := Condition("Partly Cloudy", PartlyCloudy, PartlyCloudy, SunClouds, MoonClouds)
  const Overcast := Condition("Overcast", Cloudy, Cloudy, Clouds, Clouds)
  const Foggy := Condition("Foggy", Cloudy, Cloudy, Clouds, Clouds)
  const LightRain := Condition("Light Rain", Rainy, Rainy, Rain, Rain)
  const ModerateRain := Condition("Rain", Rainy, Rainy, Rain, Rain)
  const HeavyRain := Condition("Heavy Rain", Rainy, Rainy, Rain, Rain)
  const LightSnow := Condition("Light Snow", Snowy, Snowy, Snow, Snow)
  const ModerateSnow := Condition("Snow", Snowy, Snowy, Snow, Snow)
  const HeavySnow := Condition("Heavy Snow", Snowy, Snowy, Snow, Snow)
  const Thunderstorm := Condition("Thunderstorm", Stormy, Stormy, Lightning, Lightning)

  /** The WMO codes the classifier lists. */
  const ListedCodes: set<int> := {0, 1, 2, 3, 45, 48, 51, 53, 55, 71, 73, 75, 95, 96, 99}

  /** The classifier's lookup table. */
  const CodeTable: map<int, Condition> := map[
    0 := ClearSky,
    1 := PartlyCloudySky,
    2 := PartlyCloudySky,
    3 := Overcast,
    45 := Foggy,
    48 := Foggy,
    51 := LightRain,
    53 := ModerateRain,
    55 := HeavyRain,
    71 := LightSnow,
    73 := ModerateSnow,
    75 := HeavySnow,
    95 := Thunderstorm,
    96 := Thunderstorm,
    99 := Thunderstorm]

  /** The distinct records the table holds. */
  const Entries: set<Condition> := {
    ClearSky, PartlyCloudySky, Overcast, Foggy, LightRain, ModerateRain, HeavyRain,
    LightSnow, ModerateSnow, HeavySnow, Thunderstorm}

  /** The names the classifier can produce. */
  const EntryNames: set<string> := {
    "Clear", "Partly Cloudy", "Overcast", "Foggy", "Light Rain", "Rain", "Heavy Rain",
    "Light Snow", "Snow", "Heavy Snow", "Thunderstorm"}

  /** The condition record of the fallback weather data used when the
      weather service fails. */
  const MockCondition := Condition("Partly Cloudy", PartlyCloudy, PartlyCloudy, SunClouds, MoonClouds)

  /** Classifies a weather code: its own table entry when the code is
      listed, the code-1 entry otherwise. */
  function MapWeatherCode(code: int): (r: Condition)
    ensures r in Entries
    ensures r.dayClass == r.nightClass
    ensures r == MockCondition <==> code !in ListedCodes || code == 1 || code == 2
    ensures r.name == "Partly Cloudy" <==> r == MockCondition
  {
    if code in CodeTable then CodeTable[code] else CodeTable[1]
  }

  /** The table's keys are exactly the listed codes, and its values exactly
      the listed entries. */
  lemma CodeTableShape()
    ensures CodeTable.Keys == ListedCodes
    ensures CodeTable.Values == Entries
  {
    forall c | c in Entries ensures c in CodeTable.Values {
      if c == ClearSky { assert CodeTable[0] == c; }
      else if c == PartlyCloudySky { assert CodeTable[1] == c; }
      else if c == Overcast { assert CodeTable[3] == c; }
      else if c == Foggy { assert CodeTable[45] == c; }
      else if c == LightRain { assert CodeTable[51] == c; }
      else if c == ModerateRain { assert CodeTable[53] == c; }
      else if c == HeavyRain { assert CodeTable[55] == c; }
      else if c == LightSnow { assert CodeTable[71] == c; }
      else if c == ModerateSnow { assert CodeTable[73] == c; }
      else if c == HeavySnow { assert CodeTable[75] == c; }
      else { assert CodeTable[95] == c; }
    }
  }

  /** Every code, listed or not, yields a condition whose class and effect
      names the stylesheet and the effect switch both handle. */
  lemma ClassifierTotal(code: int)
    ensures ClassName(MapWeatherCode(code).dayClass) in StyledClassNames
    ensures ClassName(MapWeatherCode(code).nightClass) in StyledClassNames
    ensures EffectName(MapWeatherCode(code).dayEffects) in SwitchedEffectNames
    ensures EffectName(MapWeatherCode(code).nightEffects) in SwitchedEffectNames
  {
    var r := MapWeatherCode(code);
    ClassNamesStyled(r.dayClass, r.nightClass);
    EffectNamesSwitched(r.dayEffects, r.nightEffects);
  }

  /** Day and night effects differ exactly for "Clear" (sun by day, moon by
      night) and "Partly Cloudy" (sun-clouds by day, moon-clouds by night). */
  lemma DayNightEffectsDiffer(code: int)
    ensures var r := MapWeatherCode(code);
      r.dayEffects != r.nightEffects <==> r.name == "Clear" || r.name == "Partly Cloudy"
    ensures var r := MapWeatherCode(code);
      r.name == "Clear" ==> r.dayEffects == Sun && r.nightEffects == Moon
    ensures var r := MapWeatherCode(code);
      r.name == "Partly Cloudy" ==> r.dayEffects == SunClouds && r.nightEffects == MoonClouds
  {
  }

  /** The name of a classified condition determines the whole record, and
      it is one of the table's names. */
  lemma NameDeterminesCondition(c1: int, c2: int)
    ensures MapWeatherCode(c1).name in EntryNames
    ensures MapWeatherCode(c1).name == MapWeatherCode(c2).name ==> MapWeatherCode(c1) == MapWeatherCode(c2)
  {
  }

  /** Codes the table does not list (slight rain 61, rain showers 80, ...)
      classify as the mock fallback's "Partly Cloudy" record. */
  lemma UnlistedCodesFallBack(code: int)
    requires code !in ListedCodes
    ensures MapWeatherCode(code) == MapWeatherCode(1) == MockCondition
    ensures MapWeatherCode(code).dayEffects == SunClouds && MapWeatherCode(code).nightEffects == MoonClouds
  {
  }

  /** Distinct listed codes share a record exactly within the groups 1-2
      (partly cloudy), 45-48 (fog) and 95-96-99 (thunderstorm); every other
      listed code has an entry of its own. */
  lemma SharedEntries(c1: int, c2: int)
    requires c1 in ListedCodes && c2 in ListedCodes
    ensures MapWeatherCode(c1) == MapWeatherCode(c2) <==>
      || c1 == c2
      || (c1 in {1, 2} && c2 in {1, 2})
      || (c1 in {45, 48} && c2 in {45, 48})
      || (c1 in {95, 96, 99} && c2 in {95, 96, 99})
  {
  }
}

=== FILE: day_night.dfy ===
/** The day/night decision and the presentation it selects: the fixed
    19:00-06:00 night window, the three branches that obtain the hour, and
    the choice of class, effect, view class string and condition label. */
module DayNight {
  import opened JsValues
  import opened Conditions

  /** A wall-clock hour as `Date.prototype.getHours` returns it. */
  type Hour = h: int | 0 <= h < 24

  /** First hour counted as night. */
  const NightStart: Hour := 19
  /** First hour counted as day. */
  const DayStart: Hour := 6

  /** The fixed threshold: night from 19:00 up to (not including) 06:00. */
  predicate IsNightHour(h: Hour) {
    h >= NightStart || h < DayStart
  }

  /** The night window, read as the 11 hours starting at 19:00 on a 24-hour
      dial, is exactly the threshold test. */
  lemma NightIsWrappedWindow(h: Hour)
    ensures IsNightHour(h) <==> (h - NightStart) % 24 < 24 - NightStart + DayStart
  {
  }

  /** The boundaries: 18 is day, 19 is night, 5 is night, 6 is day. */
  lemma NightBoundaries()
    ensures !IsNightHour(18) && IsNightHour(19) && IsNightHour(5) && !IsNightHour(6)
  {
  }

  /** The hour the night test reads: the host clock's when no timezone is
      set or projecting into it fails, the projected hour otherwise.
      `zoneHour` is the hour of "now" projected into `timezone`, or `None`
      when that projection throws. */
  function ClockHour(timezone: Option<string>, zoneHour: Option<Hour>, hostHour: Hour): (h: Hour)
    ensures h == hostHour || (Truthy(timezone) && zoneHour == Some(h))
    ensures Truthy(timezone) && zoneHour.Some? ==> h == zoneHour.value
  {
    if Truthy(timezone) && zoneHour.Some? then zoneHour.value else hostHour
  }

  /** Whether it is night, written branch by branch as the widget does it:
      no timezone, a timezone that projects, a timezone that throws. */
  function IsNightTime(timezone: Option<string>, zoneHour: Option<Hour>, hostHour: Hour): (night: bool)
    ensures night == IsNightHour(ClockHour(timezone, zoneHour, hostHour))
  {
    if !Truthy(timezone) then
      hostHour >= 19 || hostHour < 6
    else
      match zoneHour
      case Some(hour) => hour >= 19 || hour < 6
      case None => hostHour >= 19 || hostHour < 6
  }

  /** The condition label shown: "Clear" reads "Clear Night" at night and
      "Sunny" by day; every other name is shown as it is. */
  function DisplayLabel(name: string, night: bool): (shown: string)
    ensures shown == name <==> name != "Clear"
    ensures name == "Clear" && night ==> shown == "Clear Night"
    ensures name == "Clear" && !night ==> shown == "Sunny"
  {
    if night && name == "Clear" then "Clear Night"
    else if !night && name == "Clear" then "Sunny"
    else name
  }

  /** What the outside view shows for a condition at a time of day. */
  datatype Presentation = Presentation(
    weatherClass: VisualClass,
    effects: Effect,
    viewClass: string,
    caption: string)

  const NightSuffix := " night"

  predicate EndsWith(s: string, suffix: string) {
    |suffix| <= |s| && s[|s| - |suffix|..] == suffix
  }

  /** No day view class string ends in the night suffix. */
  lemma DayViewClassUntagged(w: VisualClass)
    ensures !EndsWith("outside-view " + ClassName(w), NightSuffix)
  {
    var s := "outside-view " + ClassName(w);
    assert s[|s| - 6] != ' ' || s[|s| - 5] != 'n' by {
      match w
      case Sunny => assert s[|s| - 5] == 's';
      case PartlyCloudy => assert s[|s| - 5] == 'l';
      case Cloudy => assert s[|s| - 5] == 'l';
      case Rainy => assert s[|s| - 5] == 'r';
      case Snowy => assert s[|s| - 5] == 's';
      case Stormy => assert s[|s| - 5] == 't';
    }
    assert NightSuffix[0] == ' ' && NightSuffix[1] == 'n';
  }

  /** Selects the night fields at night and the day fields by day, never a
      mix; tags the view's class string with " night" exactly at night. */
  function Present(c: Condition, night: bool): (p: Presentation)
    ensures night ==> p.weatherClass == c.nightClass && p.effects == c.nightEffects
    ensures !night ==> p.weatherClass == c.dayClass && p.effects == c.dayEffects
    ensures "outside-view " + ClassName(p.weatherClass) <= p.viewClass
    ensures |p.viewClass| == |"outside-view " + ClassName(p.weatherClass)| + (if night then |NightSuffix| else 0)
    ensures EndsWith(p.viewClass, NightSuffix) <==> night
    ensures p.caption == DisplayLabel(c.name, night)
  {
    var weatherClass := if night then c.nightClass else c.dayClass;
    var effects := if night then c.nightEffects else c.dayEffects;
    var viewClass := "outside-view " + ClassName(weatherClass) + (if night then NightSuffix else "");
    DayViewClassUntagged(weatherClass);
    Presentation(weatherClass, effects, viewClass, DisplayLabel(c.name, night))
  }

  /** Feeding a classified condition through the selection yields its day
      fields for a day hour and its night fields for a night hour, and the
      class written into the view is that selected class, which the
      stylesheet styles. */
  lemma SelectionFollowsHour(code: int, h: Hour)
    ensures var c := MapWeatherCode(code);
      var p := Present(c, IsNightHour(h));
      && (IsNightHour(h) ==> (p.weatherClass, p.effects) == (c.nightClass, c.nightEffects))
      && (!IsNightHour(h) ==> (p.weatherClass, p.effects) == (c.dayClass, c.dayEffects))
      && ClassName(p.weatherClass) in StyledClassNames
      && "outside-view " + ClassName(p.weatherClass) <= p.viewClass
  {
    ClassifierTotal(code);
  }

  /** Labels never merge two distinct table names, and the bare name
      "Clear" is never shown. */
  lemma LabelsKeepNamesApart(c1: int, c2: int, night: bool)
    ensures DisplayLabel(MapWeatherCode(c1).name, night) != "Clear"
    ensures DisplayLabel(MapWeatherCode(c1).name, night) == DisplayLabel(MapWeatherCode(c2).name, night)
            ==> MapWeatherCode(c1) == MapWeatherCode(c2)
  {
    NameDeterminesCondition(c1, c2);
  }
}

=== FILE: geocoding.dfy ===
/** Location resolution: the display-name chains built from each geocoding
    provider's answer, the ordered fallback over providers, and the load
    step that turns the first answer into a location name and timezone. */
module Geocoding {
  import opened JsValues
  import opened Timezones

  /** A geocoder's answer. `name` and `timezone` may be missing. */
  datatype GeoLocation = GeoLocation(lat: real, lon: real, name: Option<string>, timezone: Option<string>)

  /** The address fields of a Nominatim result that can name a place. */
  datatype NominatimAddress = NominatimAddress(
    city: Option<string>,
    town: Option<string>,
    village: Option<string>,
    municipality: Option<string>,
    hamlet: Option<string>,
    suburb: Option<string>,
    county: Option<string>,
    state: Option<string>)

  /** A Nominatim result: an optional address and the full display name. */
  datatype NominatimResult = NominatimResult(address: Option<NominatimAddress>, displayName: string)

  /** The address fields in the order they are preferred as a name. */
  function AddressFields(a: NominatimAddress): (fields: seq<Option<string>>)
    ensures |fields| == 8
  {
    [a.city, a.town, a.village, a.municipality, a.hamlet, a.suburb, a.county, a.state]
  }

  /** The short name of a Nominatim result: the first non-empty address
      field in preference order, else the first comma-separated part of the
      display name with surrounding whitespace removed. */
  function ExtractLocationName(r: NominatimResult): (name: string)
    ensures r.address.None? ==> name == Trim(FirstSegment(r.displayName))
    ensures r.address.Some? ==>
      var fields := AddressFields(r.address.value);
      && ((forall i | 0 <= i < |fields| :: !Truthy(fields[i])) ==> name == Trim(FirstSegment(r.displayName)))
      && (forall i | 0 <= i < |fields| && Truthy(fields[i]) ::
            (forall j | 0 <= j < i :: !Truthy(fields[j])) ==> name == fields[i].value)
    ensures name == Trim(FirstSegment(r.displayName)) || name != ""
  {
    var fallback := Trim(FirstSegment(r.displayName));
    match r.address
    case None => fallback
    case Some(a) =>
      FirstFieldOr(AddressFields(a), fallback);
      OrChain(AddressFields(a), Some(fallback)).value
  }

  /** The string a chain of fields ending in a present fallback yields: the
      first non-empty field, else the fallback. */
  lemma FirstFieldOr(fields: seq<Option<string>>, fallback: string)
    ensures var v := OrChain(fields, Some(fallback)).value;
      && ((forall i | 0 <= i < |fields| :: !Truthy(fields[i])) ==> v == fallback)
      && (forall i | 0 <= i < |fields| && Truthy(fields[i]) ::
            (forall j | 0 <= j < i :: !Truthy(fields[j])) ==> v == fields[i].value)
      && (v == fallback || v != "")
  {
  }

  /** The address fields of an OpenCage result that can name a place. */
  datatype OpenCageComponents = OpenCageComponents(
    city: Option<string>, town: Option<string>, village: Option<string>, county: Option<string>)

  /** The short name of an OpenCage result: city, town, village or county,
      else the first comma-separated part of the formatted address, which is
      not trimmed. */
  function OpenCageName(c: OpenCageComponents, formatted: string): (name: string)
    ensures Truthy(c.city) ==> name == c.city.value
    ensures !Truthy(c.city) && Truthy(c.town) ==> name == c.town.value
    ensures !Truthy(c.city) && !Truthy(c.town) && Truthy(c.village) ==> name == c.village.value
    ensures !Truthy(c.city) && !Truthy(c.town) && !Truthy(c.village) && Truthy(c.county) ==> name == c.county.value
    ensures !Truthy(c.city) && !Truthy(c.town) && !Truthy(c.village) && !Truthy(c.county) ==>
      name == FirstSegment(formatted) && ',' !in name
  {
    Or(c.city, Or(c.town, Or(c.village, Or(c.county, Some(FirstSegment(formatted)))))).value
  }

  /** The short name of a Positionstack result: locality, else
      administrative area, else its `name` field as it is, which may be
      missing. */
  function PositionstackName(locality: Option<string>, administrativeArea: Option<string>, name: Option<string>): (r: Option<string>)
    ensures Truthy(locality) ==> r == locality
    ensures !Truthy(locality) && Truthy(administrativeArea) ==> r == administrativeArea
    ensures !Truthy(locality) && !Truthy(administrativeArea) ==> r == name
  {
    Or(locality, Or(administrativeArea, name))
  }

  /** The timezone kept for a resolved location: the provider's when it
      supplied a non-empty one, the coordinate estimate otherwise. Either
      way a timezone is always set. */
  function ChooseTimezone(loc: GeoLocation): (tz: string)
    ensures Truthy(loc.timezone) ==> tz == loc.timezone.value
    ensures !Truthy(loc.timezone) ==> tz == EstimateTimezone(loc.lat, loc.lon) && tz in NamedZones + EtcZones
    ensures tz != ""
  {
    Or(loc.timezone, Some(EstimateTimezone(loc.lat, loc.lon))).value
  }

  /** What calling one geocoding provider gave: a value (present, or a
      falsy one) or a thrown error. */
  datatype Attempt<R> = Returned(result: Option<R>) | Threw(message: string)

  /** What the fallback over providers gives: the first value found,
      `undefined`, or the aggregate error. */
  datatype Geocoded<R> = Found(value: R) | Undefined | AllFailed(message: string)

  predicate Succeeded<R>(a: Attempt<R>) {
    a.Returned? && a.result.Some?
  }

  /** `i` is the first provider whose call returned a value. */
  predicate FirstSuccessAt<R>(attempts: seq<Attempt<R>>, i: int) {
    0 <= i < |attempts| && Succeeded(attempts[i]) && forall j | 0 <= j < i :: !Succeeded(attempts[j])
  }

  predicate NoneSucceeded<R>(attempts: seq<Attempt<R>>) {
    forall i | 0 <= i < |attempts| :: !Succeeded(attempts[i])
  }

  /** The providers are tried in order. The first value returned wins; an
      error is swallowed unless it comes from the last provider, which
      raises `failure`; when the last provider returns a falsy value the
      loop ends and the result is `undefined`. */
  function TryProviders<R>(attempts: seq<Attempt<R>>, failure: string): (r: Geocoded<R>)
    ensures r.Found? <==> !NoneSucceeded(attempts)
    ensures forall i | FirstSuccessAt(attempts, i) :: r == Found(attempts[i].result.value)
    ensures r.AllFailed? <==> NoneSucceeded(attempts) && |attempts| > 0 && attempts[|attempts| - 1].Threw?
    ensures r.AllFailed? ==> r.message == failure
    ensures r.Undefined? <==> NoneSucceeded(attempts) && (|attempts| == 0 || attempts[|attempts| - 1].Returned?)
    decreases |attempts|
  {
    if |attempts| == 0 then Undefined
    else
      var rest := TryProviders(attempts[1..], failure);
      assert forall i | 1 <= i < |attempts| :: attempts[i] == attempts[1..][i - 1];
      assert forall i | FirstSuccessAt(attempts, i) && i > 0 :: FirstSuccessAt(attempts[1..], i - 1);
      match attempts[0]
      case Returned(Some(v)) => Found(v)
      case Returned(None) => rest
      case Threw(_) => if |attempts| == 1 then AllFailed(failure) else rest
  }

  /** The aggregate error text for a location. */
  function FailureMessage(location: string): string {
    "All geocoding services failed for \"" + location + "\""
  }

  /** The fallback over OpenCage, Nominatim and Positionstack, in that order,
      for a location; `attempts` holds what each call would give. */
  function GeocodeWithFallbacks<R>(location: string, attempts: seq<Attempt<R>>): (r: Geocoded<R>)
    ensures forall i | FirstSuccessAt(attempts, i) :: r == Found(attempts[i].result.value)
    ensures r.AllFailed? <==> NoneSucceeded(attempts) && |attempts| > 0 && attempts[|attempts| - 1].Threw?
    ensures r.AllFailed? ==> r.message == FailureMessage(location)
    ensures r.Undefined? <==> NoneSucceeded(attempts) && (|attempts| == 0 || attempts[|attempts| - 1].Returned?)
  {
    TryProviders(attempts, FailureMessage(location))
  }

  /** How many providers get called: up to and including the first that
      returns a value. */
  function ProvidersCalled<R>(attempts: seq<Attempt<R>>): (n: nat)
    ensures n <= |attempts|
    ensures forall i | FirstSuccessAt(attempts, i) :: n == i + 1
    ensures NoneSucceeded(attempts) ==> n == |attempts|
    decreases |attempts|
  {
    if |attempts| == 0 then 0
    else if Succeeded(attempts[0]) then 1
    else
      assert forall i | FirstSuccessAt(attempts, i) && i > 0 :: FirstSuccessAt(attempts[1..], i - 1);
      1 + ProvidersCalled(attempts[1..])
  }

  /** Providers after the first success are never called, so what they
      would have given makes no difference. */
  lemma {:induction false} LaterProvidersIrrelevant<R>(attempts: seq<Attempt<R>>, failure: string)
    ensures TryProviders(attempts, failure) == TryProviders(attempts[..ProvidersCalled(attempts)], failure)
    decreases |attempts|
  {
    if |attempts| > 0 && !Succeeded(attempts[0]) {
      LaterProvidersIrrelevant(attempts[1..], failure);
      var n := ProvidersCalled(attempts);
      assert attempts[..n][1..] == attempts[1..][..n - 1];
    }
  }

  /** The three providers never return a falsy value: each throws when it
      finds nothing. With such providers the fallback never yields
      `undefined`; it finds a location or raises the aggregate error. */
  lemma ThrowingProvidersNeverUndefined<R>(location: string, attempts: seq<Attempt<R>>)
    requires |attempts| > 0
    requires forall i | 0 <= i < |attempts| :: attempts[i].Threw? || Succeeded(attempts[i])
    ensures !GeocodeWithFallbacks(location, attempts).Undefined?
  {
  }

  /** The outcome of the location half of a load cycle. */
  datatype LoadStep =
    | NoLocation                                       // no location attribute: nothing is loaded
    | Located(name: Option<string>, timezone: string)  // the name and timezone kept for display
    | LoadFailed(message: string)                      // the aggregate geocoding error
    | UndefinedLocation                                // reading `.name` of `undefined` throws

  /** Resolves the location attribute: nothing happens without one; a found
      location sets the kept name and timezone; the aggregate error and the
      `undefined` result both end the cycle with an error. */
  function LoadLocation(locationAttr: Option<string>, attempts: seq<Attempt<GeoLocation>>): (s: LoadStep)
    ensures s.NoLocation? <==> !Truthy(locationAttr)
    ensures s.Located? ==> s.timezone != "" && !NoneSucceeded(attempts)
    ensures forall i | Truthy(locationAttr) && FirstSuccessAt(attempts, i) ::
      s == Located(attempts[i].result.value.name, ChooseTimezone(attempts[i].result.value))
    ensures s.LoadFailed? ==> s.message == FailureMessage(locationAttr.value)
    ensures s.LoadFailed? <==>
      Truthy(locationAttr) && NoneSucceeded(attempts) && |attempts| > 0 && attempts[|attempts| - 1].Threw?
    ensures s.UndefinedLocation? <==>
      Truthy(locationAttr) && NoneSucceeded(attempts) && (|attempts| == 0 || attempts[|attempts| - 1].Returned?)
  {
    if !Truthy(locationAttr) then NoLocation
    else
      match GeocodeWithFallbacks(locationAttr.value, attempts)
      case Found(loc) => Located(loc.name, ChooseTimezone(loc))
      case AllFailed(message) => LoadFailed(message)
      case Undefined => UndefinedLocation
  }
}

=== FILE: js_values.dfy ===
/** The handful of JavaScript value semantics the widget's decision logic
    leans on: truthiness of optional strings, the short-circuit `||` chain,
    `Math.round`, `String.prototype.split(',')[0]`, `String.prototype.trim`
    and the decimal printing of integers inside template literals. */
module JsValues {

  /** A value that is either present or JavaScript's null/undefined. */
  datatype Option<+T> = None | Some(value: T)

  /** JavaScript truthiness of a string-valued field: null, undefined and
      the empty string are falsy, every other string is truthy. */
  predicate Truthy(v: Option<string>) {
    v.Some? && v.value != ""
  }

  /** `a || b` on string-valued fields: the first operand when it is
      truthy, otherwise the second one exactly as it is. */
  function Or(a: Option<string>, b: Option<string>): (r: Option<string>)
    ensures Truthy(a) ==> r == a
    ensures !Truthy(a) ==> r == b
    ensures Truthy(r) <==> Truthy(a) || Truthy(b)
  {
    if Truthy(a) then a else b
  }

  /** The chain `xs[0] || xs[1] || ... || last`: the first truthy operand,
      or the last operand unchanged when none of the others is truthy. */
  function OrChain(xs: seq<Option<string>>, last: Option<string>): (r: Option<string>)
    ensures (forall i | 0 <= i < |xs| :: !Truthy(xs[i])) ==> r == last
    ensures forall i | 0 <= i < |xs| && Truthy(xs[i]) ::
              (forall j | 0 <= j < i :: !Truthy(xs[j])) ==> r == xs[i]
    ensures r == last || (r in xs && Truthy(r))
    decreases |xs|
  {
    if |xs| == 0 then last
    else
      var rest := OrChain(xs[1..], last);
      assert forall i | 1 <= i < |xs| :: xs[i] == xs[1..][i - 1];
      Or(xs[0], rest)
  }

  /** `Math.round(x)`: the nearest integer, with halves rounded towards
      positive infinity. */
  function JsRound(x: real): (r: int)
    ensures r as real - 0.5 <= x < r as real + 0.5
  {
    (x + 0.5).Floor
  }

  /** `Math.max(lo, Math.min(hi, x))` on integers. */
  function Clamp(lo: int, hi: int, x: int): (r: int)
    requires lo <= hi
    ensures lo <= r <= hi
    ensures lo <= x <= hi ==> r == x
    ensures x < lo ==> r == lo
    ensures hi < x ==> r == hi
  {
    if hi < x then hi else if x < lo then lo else x
  }

  /** `s.split(',')[0]`: everything before the first comma, or the whole
      string when it has none. */
  function FirstSegment(s: string): (r: string)
    ensures ',' !in r
    ensures r <= s
    ensures |r| < |s| ==> s[|r|] == ','
  {
    if |s| == 0 || s[0] == ',' then "" else [s[0]] + FirstSegment(s[1..])
  }

  /** The characters `String.prototype.trim` removes: the ECMAScript
      WhiteSpace and LineTerminator code points. */
  predicate IsJsWhitespace(c: char) {
    || c == '\t' || c == '\n' || c == '\U{000B}' || c == '\U{000C}' || c == '\r'
    || c == ' ' || c == '\U{00A0}' || c == '\U{1680}'
    || ('\U{2000}' <= c <= '\U{200A}')
    || c == '\U{2028}' || c == '\U{2029}' || c == '\U{202F}' || c == '\U{205F}'
    || c == '\U{3000}' || c == '\U{FEFF}'
  }

  predicate AllWhitespace(s: string) {
    forall i | 0 <= i < |s| :: IsJsWhitespace(s[i])
  }

  /** Drops the leading whitespace of `s`. */
  function TrimStart(s: string): (r: string)
    ensures |r| <= |s| && r == s[|s| - |r|..]
    ensures AllWhitespace(s[..|s| - |r|])
    ensures r == [] || !IsJsWhitespace(r[0])
  {
    if |s| > 0 && IsJsWhitespace(s[0]) then
      var r := TrimStart(s[1..]);
      assert s[..|s| - |r|] == [s[0]] + s[1..][..|s[1..]| - |r|];
      r
    else s
  }

  /** Drops the trailing whitespace of `s`. */
  function TrimEnd(s: string): (r: string)
    ensures |r| <= |s| && r == s[..|r|]
    ensures AllWhitespace(s[|r|..])
    ensures r == [] || !IsJsWhitespace(r[|r| - 1])
  {
    if |s| > 0 && IsJsWhitespace(s[|s| - 1]) then
      var r := TrimEnd(s[..|s| - 1]);
      assert s[|r|..] == s[..|s| - 1][|r|..] + [s[|s| - 1]];
      r
    else s
  }

  /** `r` sits in `s` at offset `k` with only whitespace around it. */
  predicate WhitespaceAround(s: string, k: int, r: string) {
    && 0 <= k && k + |r| <= |s|
    && s[k..k + |r|] == r
    && AllWhitespace(s[..k])
    && AllWhitespace(s[k + |r|..])
  }

  /** `s.trim()`: `s` without its leading and trailing whitespace. */
  function Trim(s: string): (r: string)
    ensures |r| <= |s|
    ensures exists k :: WhitespaceAround(s, k, r)
    ensures r == [] || (!IsJsWhitespace(r[0]) && !IsJsWhitespace(r[|r| - 1]))
  {
    var t := TrimStart(s);
    var r := TrimEnd(t);
    TrimmedMiddle(s, t, r);
    assert r != [] ==> r[0] == t[0];
    r
  }

  /** When `t` is a suffix of `s` after whitespace, and `r` a prefix of `t`
      before whitespace, then `r` is the slice of `s` between two whitespace
      runs. */
  lemma TrimmedMiddle(s: string, t: string, r: string)
    requires |t| <= |s| && t == s[|s| - |t|..] && AllWhitespace(s[..|s| - |t|])
    requires |r| <= |t| && r == t[..|r|] && AllWhitespace(t[|r|..])
    ensures WhitespaceAround(s, |s| - |t|, r)
  {
    var k := |s| - |t|;
    assert s[k..k + |r|] == r;
    assert s[k + |r|..] == t[|r|..];
  }

  /** A leading whitespace run followed by a non-whitespace character (or
      the end) has only one possible length. */
  lemma LeadingRunUnique(s: string, k: int, j: int)
    requires 0 <= k <= |s| && 0 <= j <= |s|
    requires AllWhitespace(s[..k]) && AllWhitespace(s[..j])
    requires k < |s| ==> !IsJsWhitespace(s[k])
    requires j < |s| ==> !IsJsWhitespace(s[j])
    ensures k == j
  {
  }

  /** A trailing whitespace run preceded by a non-whitespace character (or
      the start) has only one possible start. */
  lemma TrailingRunUnique(t: string, m: int, n: int)
    requires 0 <= m <= |t| && 0 <= n <= |t|
    requires AllWhitespace(t[m..]) && AllWhitespace(t[n..])
    requires m > 0 ==> !IsJsWhitespace(t[m - 1])
    requires n > 0 ==> !IsJsWhitespace(t[n - 1])
    ensures m == n
  {
  }

  /** The slice property pins the trimmed string down: any slice of `s`
      with only whitespace around it and no whitespace at either end is
      `Trim(s)`. */
  lemma TrimUnique(s: string, k: int, r: string)
    requires WhitespaceAround(s, k, r)
    requires r == [] || (!IsJsWhitespace(r[0]) && !IsJsWhitespace(r[|r| - 1]))
    ensures r == Trim(s)
  {
    var t := TrimStart(s);
    var j := |s| - |t|;
    if r == [] {
      assert AllWhitespace(s) by {
        forall i | 0 <= i < |s| ensures IsJsWhitespace(s[i]) {
          if i < k { assert s[i] == s[..k][i]; } else { assert s[i] == s[k..][i - k]; }
        }
      }
    } else {
      assert s[k] == r[0];
      assert j < |s| ==> s[j] == t[0];
      LeadingRunUnique(s, k, j);
      var e := TrimEnd(t);
      assert r == t[..|r|] && t[|r|..] == s[k + |r|..];
      assert t[|r| - 1] == r[|r| - 1];
      TrailingRunUnique(t, |r|, |e|);
      assert e == t[..|e|];
    }
  }

  /** Trimming a second time changes nothing. */
  lemma {:induction false} TrimIdempotent(s: string)
    ensures Trim(Trim(s)) == Trim(s)
  {
    var t := Trim(s);
    if t != [] {
      assert !IsJsWhitespace(t[0]);
      assert TrimStart(t) == t;
      assert !IsJsWhitespace(t[|t| - 1]);
      assert TrimEnd(t) == t;
    }
  }

  /** The decimal digit character of `d`. */
  function DigitChar(d: int): char
    requires 0 <= d < 10
  {
    "0123456789"[d]
  }

  /** The value of a decimal digit character, if it is one. */
  function DigitValue(c: char): (r: int)
    ensures '0' <= c <= '9' ==> 0 <= r < 10
  {
    if '0' <= c <= '9' then c as int - '0' as int else -1
  }

  predicate IsDecimal(s: string) {
    |s| > 0 && forall i | 0 <= i < |s| :: '0' <= s[i] <= '9'
  }

  /** How a template literal prints a non-negative integer: its decimal
      digits, without leading zeros. */
  function NatToString(n: nat): (r: string)
    ensures IsDecimal(r)
    ensures r[0] == '0' ==> n == 0
  {
    if n < 10 then [DigitChar(n)] else NatToString(n / 10) + [DigitChar(n % 10)]
  }

  /** How a template literal prints an integer: a minus sign for negative
      numbers followed by the digits of the magnitude. */
  function IntToString(n: int): (r: string)
    ensures |r| > 0 && (n < 0 <==> r[0] == '-')
    ensures n >= 0 ==> r == NatToString(n)
    ensures n < 0 ==> r[1..] == NatToString(-n)
  {
    if n < 0 then "-" + NatToString(-n) else NatToString(n)
  }

  /** The value of a string of decimal digits. */
  function ParseDecimal(s: string): nat
    requires IsDecimal(s)
  {
    if |s| == 1 then DigitValue(s[0])
    else ParseDecimal(s[..|s| - 1]) * 10 + DigitValue(s[|s| - 1])
  }

  /** Printing a number and reading it back gives the number. */
  lemma {:induction false} NatToStringRoundTrip(n: nat)
    ensures ParseDecimal(NatToString(n)) == n
  {
    if n >= 10 {
      var s := NatToString(n / 10);
      NatToStringRoundTrip(n / 10);
      var t := s + [DigitChar(n % 10)];
      assert t[..|t| - 1] == s;
    }
  }

  /** Different numbers print differently. */
  lemma NatToStringInjective(m: nat, n: nat)
    ensures NatToString(m) == NatToString(n) ==> m == n
  {
    NatToStringRoundTrip(m);
    NatToStringRoundTrip(n);
  }
}

=== FILE: timezones.dfy ===
/** Timezone estimation from coordinates: four coarse latitude/longitude
    boxes with longitude bands, and outside them a whole-hour `Etc/GMT`
    zone derived from the longitude. */
module Timezones {
  import opened JsValues

  /** A longitude band: every longitude up to and including `upTo`
      (and above the previous band) belongs to `zone`. */
  datatype Band = Band(upTo: real, zone: string)

  /** A latitude/longitude box, its bands from west to east, and the zone
      of the longitudes east of the last band. */
  datatype Region = Region(
    latMin: real, latMax: real, lonMin: real, lonMax: real,
    bands: seq<Band>, beyond: string)

  predicate InBox(g: Region, lat: real, lon: real) {
    g.latMin <= lat <= g.latMax && g.lonMin <= lon <= g.lonMax
  }

  /** The zone of the first band whose inclusive upper bound reaches `lon`,
      or `beyond` when no band does. */
  function FirstBand(bands: seq<Band>, beyond: string, lon: real): (z: string)
    ensures z == beyond || exists i | 0 <= i < |bands| :: z == bands[i].zone
  {
    if |bands| == 0 then beyond
    else if lon <= bands[0].upTo then bands[0].zone
    else FirstBand(bands[1..], beyond, lon)
  }

  /** `FirstBand` picks the earliest band that reaches the longitude, and
      `beyond` exactly when none does. */
  lemma {:induction false} FirstBandIsEarliest(bands: seq<Band>, beyond: string, lon: real, i: int)
    requires 0 <= i < |bands| && lon <= bands[i].upTo
    requires forall j | 0 <= j < i :: bands[j].upTo < lon
    ensures FirstBand(bands, beyond, lon) == bands[i].zone
  {
    if i > 0 {
      FirstBandIsEarliest(bands[1..], beyond, lon, i - 1);
    }
  }

  /** With no band reaching the longitude, the zone is `beyond`. */
  lemma {:induction false} FirstBandBeyond(bands: seq<Band>, beyond: string, lon: real)
    requires forall j | 0 <= j < |bands| :: bands[j].upTo < lon
    ensures FirstBand(bands, beyond, lon) == beyond
  {
    if |bands| > 0 {
      FirstBandBeyond(bands[1..], beyond, lon);
    }
  }

  function Zone(g: Region, lon: real): string {
    FirstBand(g.bands, g.beyond, lon)
  }

  const Europe := Region(35.0, 71.0, -10.0, 40.0,
    [Band(5.0, "Europe/London"), Band(15.0, "Europe/Paris"), Band(25.0, "Europe/Berlin")],
    "Europe/Moscow")

  const Asia := Region(0.0, 50.0, 60.0, 150.0,
    [Band(75.0, "Asia/Kolkata"), Band(105.0, "Asia/Bangkok"), Band(125.0, "Asia/Shanghai")],
    "Asia/Tokyo")

  const Oceania := Region(-45.0, -10.0, 110.0, 180.0,
    [Band(130.0, "Australia/Perth"), Band(145.0, "Australia/Adelaide")],
    "Australia/Sydney")

  /** The North America box, whose zones are chosen by lower bounds. */
  predicate InNorthAmerica(lat: real, lon: real) {
    24.0 <= lat <= 71.0 && -180.0 <= lon <= -66.0
  }

  predicate InAnyBox(lat: real, lon: real) {
    InNorthAmerica(lat, lon) || InBox(Europe, lat, lon) || InBox(Asia, lat, lon) || InBox(Oceania, lat, lon)
  }

  /** The hours east of UTC named by an `Etc/GMT±n` zone. The IANA names
      invert the sign: `Etc/GMT-5` is five hours east of UTC. */
  function EtcUtcOffset(z: string): Option<int> {
    if |z| > 8 && z[..7] == "Etc/GMT" && (z[7] == '-' || z[7] == '+') && IsDecimal(z[8..]) then
      var n: int := ParseDecimal(z[8..]);
      Some(if z[7] == '-' then n else -n)
    else None
  }

  /** The `Etc/GMT±n` zone whose UTC offset is `offset` hours east, written
      with "-" for zero and eastern offsets and "+" for western ones. */
  function EtcZoneName(offset: int): (z: string)
    ensures EtcUtcOffset(z) == Some(offset)
    ensures z[..8] == (if offset >= 0 then "Etc/GMT-" else "Etc/GMT+")
  {
    var digits := NatToString(if offset >= 0 then offset else -offset);
    NatToStringRoundTrip(if offset >= 0 then offset else -offset);
    var z := (if offset >= 0 then "Etc/GMT-" else "Etc/GMT+") + digits;
    assert z[8..] == digits;
    z
  }

  /** The zone used outside every box: the whole-hour offset `Math.round(lon / 15)`,
      clamped to twelve hours either way. Within the clamp the offset is the
      hour nearest lon/15; beyond it, the nearer bound. */
  function FallbackZone(lon: real): (z: string)
    ensures EtcUtcOffset(z).Some? && -12 <= EtcUtcOffset(z).value <= 12
    ensures var n := EtcUtcOffset(z).value;
      && (-12.5 <= lon / 15.0 < 12.5 ==> n as real - 0.5 <= lon / 15.0 < n as real + 0.5)
      && (11.5 <= lon / 15.0 ==> n == 12)
      && (lon / 15.0 < -11.5 ==> n == -12)
  {
    EtcZoneName(Clamp(-12, 12, JsRound(lon / 15.0)))
  }

  /** Estimates a zone for coordinates without a provider-supplied one. The
      North America branch tests `lon >= -130` first, so every point of its
      box east of 130°W is given America/Anchorage. */
  function EstimateTimezone(lat: real, lon: real): (z: string)
    ensures z in NamedZones + EtcZones
  {
    if lat >= 24.0 && lat <= 71.0 && lon >= -180.0 && lon <= -66.0 then
      if lon >= -130.0 then "America/Anchorage"
      else if lon >= -125.0 then "America/Los_Angeles"
      else if lon >= -114.0 then "America/Denver"
      else if lon >= -104.0 then "America/Chicago"
      else "America/New_York"
    else if lat >= 35.0 && lat <= 71.0 && lon >= -10.0 && lon <= 40.0 then
      if lon <= 5.0 then "Europe/London"
      else if lon <= 15.0 then "Europe/Paris"
      else if lon <= 25.0 then "Europe/Berlin"
      else "Europe/Moscow"
    else if lat >= 0.0 && lat <= 50.0 && lon >= 60.0 && lon <= 150.0 then
      if lon <= 75.0 then "Asia/Kolkata"
      else if lon <= 105.0 then "Asia/Bangkok"
      else if lon <= 125.0 then "Asia/Shanghai"
      else "Asia/Tokyo"
    else if lat >= -45.0 && lat <= -10.0 && lon >= 110.0 && lon <= 180.0 then
      if lon <= 130.0 then "Australia/Perth"
      else if lon <= 145.0 then "Australia/Adelaide"
      else "Australia/Sydney"
    else
      var z := FallbackZone(lon);
      EtcZoneListed(Clamp(-12, 12, JsRound(lon / 15.0)));
      z
  }

  /** Inside the North America box only two zones come out: Anchorage from
      130°W eastwards, New York west of it. */
  lemma NorthAmericaTwoZones(lat: real, lon: real)
    requires InNorthAmerica(lat, lon)
    ensures EstimateTimezone(lat, lon) == (if lon >= -130.0 then "America/Anchorage" else "America/New_York")
  {
  }

  /** The Los Angeles, Denver and Chicago returns are dead code. */
  lemma UnreachableZones(lat: real, lon: real)
    ensures EstimateTimezone(lat, lon) !in {"America/Los_Angeles", "America/Denver", "America/Chicago"}
  {
  }

  /** The four boxes do not overlap, so their order does not matter. */
  lemma BoxesDisjoint(lat: real, lon: real)
    ensures !(InNorthAmerica(lat, lon) && InBox(Europe, lat, lon))
    ensures !(InNorthAmerica(lat, lon) && InBox(Asia, lat, lon))
    ensures !(InNorthAmerica(lat, lon) && InBox(Oceania, lat, lon))
    ensures !(InBox(Europe, lat, lon) && InBox(Asia, lat, lon))
    ensures !(InBox(Europe, lat, lon) && InBox(Oceania, lat, lon))
    ensures !(InBox(Asia, lat, lon) && InBox(Oceania, lat, lon))
  {
  }

  /** The zone of a list of three bands, band by band. */
  lemma ThreeBands(bands: seq<Band>, beyond: string, lon: real)
    requires |bands| == 3
    ensures FirstBand(bands, beyond, lon) ==
      if lon <= bands[0].upTo then bands[0].zone
      else if lon <= bands[1].upTo then bands[1].zone
      else if lon <= bands[2].upTo then bands[2].zone
      else beyond
  {
    var r1 := bands[1..];
    var r2 := r1[1..];
    assert r1[0] == bands[1] && r2[0] == bands[2] && r2[1..] == [];
    assert FirstBand(r2[1..], beyond, lon) == beyond;
    assert FirstBand(r2, beyond, lon) == if lon <= bands[2].upTo then bands[2].zone else beyond;
  }

  /** Inside the Europe box the zone is that of the first band whose
      inclusive upper bound is at least the longitude. */
  lemma EuropeFollowsBands(lat: real, lon: real)
    requires InBox(Europe, lat, lon)
    ensures EstimateTimezone(lat, lon) == Zone(Europe, lon)
  {
    ThreeBands(Europe.bands, Europe.beyond, lon);
  }

  /** Inside the Asia box the zone is that of the first band whose
      inclusive upper bound is at least the longitude. */
  lemma AsiaFollowsBands(lat: real, lon: real)
    requires InBox(Asia, lat, lon)
    ensures EstimateTimezone(lat, lon) == Zone(Asia, lon)
  {
    ThreeBands(Asia.bands, Asia.beyond, lon);
  }

  /** Inside the Oceania box the zone is that of the first band whose
      inclusive upper bound is at least the longitude. */
  lemma OceaniaFollowsBands(lat: real, lon: real)
    requires InBox(Oceania, lat, lon)
    ensures EstimateTimezone(lat, lon) == Zone(Oceania, lon)
  {
    var r1 := Oceania.bands[1..];
    assert r1[0] == Oceania.bands[1] && r1[1..] == [];
    assert FirstBand(r1[1..], Oceania.beyond, lon) == Oceania.beyond;
    assert FirstBand(r1, Oceania.beyond, lon) ==
      if lon <= Oceania.bands[1].upTo then Oceania.bands[1].zone else Oceania.beyond;
  }

  /** Outside every box the zone is the whole-hour offset nearest to
      lon/15, halves rounded east, clamped to twelve hours either way; for
      longitudes within ±180° the clamp never bites. */
  lemma FallbackIsNearestHour(lat: real, lon: real)
    requires !InAnyBox(lat, lon)
    ensures EtcUtcOffset(EstimateTimezone(lat, lon)).Some?
    ensures var n := EtcUtcOffset(EstimateTimezone(lat, lon)).value;
      && -12 <= n <= 12
      && (-12.5 <= lon / 15.0 < 12.5 ==> n as real - 0.5 <= lon / 15.0 < n as real + 0.5)
      && (11.5 <= lon / 15.0 ==> n == 12)
      && (lon / 15.0 < -11.5 ==> n == -12)
  {
  }

  /** The named zones the estimate can return. */
  const NamedZones: set<string> := {
    "America/Anchorage", "America/New_York",
    "Europe/London", "Europe/Paris", "Europe/Berlin", "Europe/Moscow",
    "Asia/Kolkata", "Asia/Bangkok", "Asia/Shanghai", "Asia/Tokyo",
    "Australia/Perth", "Australia/Adelaide", "Australia/Sydney"}

  /** The whole-hour zones the estimate can fall back to. */
  const EtcZones: set<string> := {
    "Etc/GMT+12", "Etc/GMT+11", "Etc/GMT+10", "Etc/GMT+9", "Etc/GMT+8", "Etc/GMT+7",
    "Etc/GMT+6", "Etc/GMT+5", "Etc/GMT+4", "Etc/GMT+3", "Etc/GMT+2", "Etc/GMT+1",
    "Etc/GMT-0", "Etc/GMT-1", "Etc/GMT-2", "Etc/GMT-3", "Etc/GMT-4", "Etc/GMT-5",
    "Etc/GMT-6", "Etc/GMT-7", "Etc/GMT-8", "Etc/GMT-9", "Etc/GMT-10", "Etc/GMT-11",
    "Etc/GMT-12"}

  /** Offsets up to 12 print as one digit, or as "1" followed by the units
      digit. */
  lemma SmallNatStrings(m: nat)
    requires m <= 12
    ensures m < 10 ==> NatToString(m) == [DigitChar(m)]
    ensures 10 <= m ==> NatToString(m) == ['1', DigitChar(m - 10)]
  {
  }

  /** Each whole-hour zone east of UTC, and UTC itself, is listed. */
  lemma EastZoneListed(m: nat)
    requires 0 <= m <= 12
    ensures "Etc/GMT-" + NatToString(m) in EtcZones
  {
    if m == 0 { assert NatToString(m) == "0"; assert "Etc/GMT-" + NatToString(m) == "Etc/GMT-0"; }
    else if m == 1 { assert NatToString(m) == "1"; assert "Etc/GMT-" + NatToString(m) == "Etc/GMT-1"; }
    else if m == 2 { assert NatToString(m) == "2"; assert "Etc/GMT-" + NatToString(m) == "Etc/GMT-2"; }
    else if m == 3 { assert NatToString(m) == "3"; assert "Etc/GMT-" + NatToString(m) == "Etc/GMT-3"; }
    else if m == 4 { assert NatToString(m) == "4"; assert "Etc/GMT-" + NatToString(m) == "Etc/GMT-4"; }
    else if m == 5 { assert NatToString(m) == "5"; assert "Etc/GMT-" + NatToString(m) == "Etc/GMT-5"; }
    else if m == 6 { assert NatToString(m) == "6"; assert "Etc/GMT-" + NatToString(m) == "Etc/GMT-6"; }
    else if m == 7 { assert NatToString(m) == "7"; assert "Etc/GMT-" + NatToString(m) == "Etc/GMT-7"; }
    else if m == 8 { assert NatToString(m) == "8"; assert "Etc/GMT-" + NatToString(m) == "Etc/GMT-8"; }
    else if m == 9 { assert NatToString(m) == "9"; assert "Etc/GMT-" + NatToString(m) == "Etc/GMT-9"; }
    else if m == 10 { assert NatToString(m) == "10"; assert "Etc/GMT-" + NatToString(m) == "Etc/GMT-10"; }
    else if m == 11 { assert NatToString(m) == "11"; assert "Etc/GMT-" + NatToString(m) == "Etc/GMT-11"; }
    else { assert NatToString(m) == "12"; assert "Etc/GMT-" + NatToString(m) == "Etc/GMT-12"; }
  }

  /** Each whole-hour zone west of UTC is listed. */
  lemma WestZoneListed(m: nat)
    requires 1 <= m <= 12
    ensures "Etc/GMT+" + NatToString(m) in EtcZones
  {
    if m == 1 { assert NatToString(m) == "1"; assert "Etc/GMT+" + NatToString(m) == "Etc/GMT+1"; }
    else if m == 2 { assert NatToString(m) == "2"; assert "Etc/GMT+" + NatToString(m) == "Etc/GMT+2"; }
    else if m == 3 { assert NatToString(m) == "3"; assert "Etc/GMT+" + NatToString(m) == "Etc/GMT+3"; }
    else if m == 4 { assert NatToString(m) == "4"; assert "Etc/GMT+" + NatToString(m) == "Etc/GMT+4"; }
    else if m == 5 { assert NatToString(m) == "5"; assert "Etc/GMT+" + NatToString(m) == "Etc/GMT+5"; }
    else if m == 6 { assert NatToString(m) == "6"; assert "Etc/GMT+" + NatToString(m) == "Etc/GMT+6"; }
    else if m == 7 { assert NatToString(m) == "7"; assert "Etc/GMT+" + NatToString(m) == "Etc/GMT+7"; }
    else if m == 8 { assert NatToString(m) == "8"; assert "Etc/GMT+" + NatToString(m) == "Etc/GMT+8"; }
    else if m == 9 { assert NatToString(m) == "9"; assert "Etc/GMT+" + NatToString(m) == "Etc/GMT+9"; }
    else if m == 10 { assert NatToString(m) == "10"; assert "Etc/GMT+" + NatToString(m) == "Etc/GMT+10"; }
    else if m == 11 { assert NatToString(m) == "11"; assert "Etc/GMT+" + NatToString(m) == "Etc/GMT+11"; }
    else { assert NatToString(m) == "12"; assert "Etc/GMT+" + NatToString(m) == "Etc/GMT+12"; }
  }

  /** Each clamped offset names one of the listed whole-hour zones. */
  lemma EtcZoneListed(n: int)
    requires -12 <= n <= 12
    ensures EtcZoneName(n) in EtcZones
  {
    if n >= 0 {
      EastZoneListed(n);
    } else {
      WestZoneListed(-n);
    }
  }
}

=== FILE: weather.dfy ===
/** The weather half of a load cycle and what gets displayed: the unit
    setting, the mock data used when the weather service fails, the parsed
    observation, and the texts of the weather and error views. */
module Weather {
  import opened JsValues
  import opened Conditions
  import opened DayNight

  /** The unit setting in force: the `units` attribute when it is set and
      non-empty, "F" otherwise. */
  function EffectiveUnits(unitsAttr: Option<string>): (units: string)
    ensures Truthy(unitsAttr) ==> units == unitsAttr.value
    ensures !Truthy(unitsAttr) ==> units == "F"
    ensures units != ""
  {
    Or(unitsAttr, Some("F")).value
  }

  /** The unit the weather service is asked for. Only the exact setting
      "F" selects Fahrenheit. */
  function RequestedUnit(units: string): (unit: string)
    ensures unit == "fahrenheit" <==> units == "F"
    ensures unit == "celsius" <==> units != "F"
  {
    if units == "F" then "fahrenheit" else "celsius"
  }

  /** The unit suffix displayed after the temperature. Only the exact
      setting "F" displays °F. */
  function UnitLabel(units: string): (suffix: string)
    ensures suffix == "°F" <==> units == "F"
    ensures suffix == "°C" <==> units != "F"
  {
    if units == "F" then "°F" else "°C"
  }

  /** For one value of the `units` attribute (absent, "F", "C", "f", "K",
      ...), the label chosen for display agrees with the unit
      `RequestedUnit` selects. */
  lemma DisplayedUnitMatchesRequest(unitsAttr: Option<string>)
    ensures var u := EffectiveUnits(unitsAttr);
      RequestedUnit(u) == "fahrenheit" <==> UnitLabel(u) == "°F"
    ensures !Truthy(unitsAttr) ==> UnitLabel(EffectiveUnits(unitsAttr)) == "°F"
  {
  }

  /** The data handed to display: a rounded temperature and wind speed, a
      condition record, and the timezone in force. */
  datatype WeatherData = WeatherData(
    temperature: int,
    condition: Condition,
    windSpeed: int,
    timezone: Option<string>)

  /** The stand-in used whenever the weather service fails: a mild
      partly-cloudy day with an 8-unit wind. */
  function MockWeatherData(units: string, currentTimezone: Option<string>): (w: WeatherData)
    ensures w.temperature == 72 <==> units == "F"
    ensures w.temperature == 22 <==> units != "F"
    ensures w.windSpeed == 8
    ensures w.condition == MapWeatherCode(1) && w.condition.name == "Partly Cloudy"
    ensures w.timezone == currentTimezone
  {
    WeatherData(if units == "F" then 72 else 22, MockCondition, 8, currentTimezone)
  }

  /** The `current_weather` part of a service response, with temperature
      and wind already rounded. */
  datatype CurrentWeather = CurrentWeather(weatherCode: int, temperature: int, windSpeed: int)

  /** A weather service call: it fails (network error, HTTP error status,
      unreadable body) or gives a body whose parts may be missing. */
  datatype ServiceResponse =
    | ServiceFailed
    | ServiceBody(current: Option<CurrentWeather>, timezone: Option<string>)

  /** What fetching leaves behind: the data to display, the timezone the
      widget keeps from then on, and the temperature unit the request
      asked the service for. */
  datatype Fetched = Fetched(data: WeatherData, currentTimezone: Option<string>, requestedUnit: string)

  predicate Usable(resp: ServiceResponse) {
    resp.ServiceBody? && resp.current.Some?
  }

  /** Fetches the weather, asking the service for the unit the setting
      selects: a usable body is parsed (and its timezone, when
      non-empty, replaces the kept one); anything else yields the mock data
      with the kept timezone untouched. Fetching never fails. */
  function FetchWeather(units: string, currentTimezone: Option<string>, resp: ServiceResponse): (f: Fetched)
    ensures Usable(resp) ==>
      && f.data.condition == MapWeatherCode(resp.current.value.weatherCode)
      && f.data.temperature == resp.current.value.temperature
      && f.data.windSpeed == resp.current.value.windSpeed
    ensures !Usable(resp) ==> f.data == MockWeatherData(units, currentTimezone)
    ensures f.currentTimezone != currentTimezone ==> Usable(resp) && Truthy(resp.timezone)
    ensures Usable(resp) && Truthy(resp.timezone) ==> f.currentTimezone == resp.timezone
    ensures f.data.timezone == f.currentTimezone
    ensures f.data.condition in Entries
    ensures f.requestedUnit == "fahrenheit" <==> units == "F"
    ensures f.requestedUnit == "celsius" <==> units != "F"
  {
    var unit := RequestedUnit(units);
    match resp
    case ServiceFailed => Fetched(MockWeatherData(units, currentTimezone), currentTimezone, unit)
    case ServiceBody(None, _) => Fetched(MockWeatherData(units, currentTimezone), currentTimezone, unit)
    case ServiceBody(Some(current), tz) =>
      var kept := if Truthy(tz) then tz else currentTimezone;
      var data := WeatherData(current.temperature, MapWeatherCode(current.weatherCode), current.windSpeed, Or(tz, kept));
      Fetched(data, kept, unit)
  }

  /** The texts and classes of the weather view. */
  datatype WeatherView = WeatherView(
    viewClass: string,
    effects: Effect,
    location: string,
    temperature: string,
    condition: string,
    localTime: string)

  /** The location line: the kept name, or "Unknown" without one. */
  function LocationLine(currentName: Option<string>): (line: string)
    ensures Truthy(currentName) ==> line == currentName.value
    ensures !Truthy(currentName) ==> line == "Unknown"
  {
    Or(currentName, Some("Unknown")).value
  }

  /** Renders weather data at a time of day: the presentation chosen by
      night or day, the temperature with the unit suffix of the current
      setting. */
  function DisplayWeather(unitsAttr: Option<string>, w: WeatherData, night: bool,
                          currentName: Option<string>, localTime: string): (v: WeatherView)
    ensures v.viewClass == Present(w.condition, night).viewClass
    ensures v.effects == (if night then w.condition.nightEffects else w.condition.dayEffects)
    ensures v.condition == DisplayLabel(w.condition.name, night)
    ensures EndsWith(v.temperature, UnitLabel(EffectiveUnits(unitsAttr)))
    ensures v.temperature[..|v.temperature| - 2] == IntToString(w.temperature)
    ensures v.location == LocationLine(currentName)
  {
    var p := Present(w.condition, night);
    var suffix := UnitLabel(EffectiveUnits(unitsAttr));
    var temperature := IntToString(w.temperature) + suffix;
    assert temperature[|temperature| - |suffix|..] == suffix;
    WeatherView(p.viewClass, p.effects, LocationLine(currentName), temperature, p.caption, localTime)
  }

  /** The texts of the error view. */
  datatype ErrorView = ErrorView(outside: string, location: string, temperature: string, condition: string, localTime: string)

  /** Renders a failed load: the error message, the best name known (the
      kept name, else the location attribute, else "Unknown"), a
      placeholder temperature and a fixed condition text. */
  function DisplayError(message: string, currentName: Option<string>, locationAttr: Option<string>,
                        localTime: string): (v: ErrorView)
    ensures v.outside == "Error: " + message
    ensures Truthy(currentName) ==> v.location == currentName.value
    ensures !Truthy(currentName) && Truthy(locationAttr) ==> v.location == locationAttr.value
    ensures !Truthy(currentName) && !Truthy(locationAttr) ==> v.location == "Unknown"
    ensures v.temperature == "--°" && v.condition == "Unable to load"
  {
    ErrorView("Error: " + message, Or(currentName, Or(locationAttr, Some("Unknown"))).value,
              "--°", "Unable to load", localTime)
  }
}

=== FILE: widget.dfy ===
/** One load cycle of the widget, composed from its parts: resolve the
    location, keep its name and timezone, fetch the weather, decide day or
    night in the kept timezone, and render either the weather or the error
    view. The state kept between cycles is an explicit value. */
module Widget {
  import opened JsValues
  import opened DayNight
  import opened Geocoding
  import opened Weather

  /** What the widget keeps between cycles. */
  datatype WidgetState = WidgetState(currentTimezone: Option<string>, currentLocationName: Option<string>)

  /** What a cycle puts on screen; shown weather also records the unit the
      service was asked for. */
  datatype Screen = Unchanged | ShowsWeather(weather: WeatherView, requestedUnit: string) | ShowsError(error: ErrorView)

  /** Everything a cycle learns from outside: what each geocoder gives,
      what the weather service gives, the hour of "now" in the kept
      timezone (`None` when that projection throws), the host clock's hour,
      the formatted local time, the host's text for the error thrown when
      the geocoders yield `undefined`, and the `units` and `location`
      attributes as the display step reads them again after the awaits.
      A change of attribute while a cycle is loading does not start a new
      cycle, so these may differ from the values the cycle started with. */
  datatype Environment = Environment(
    geocoders: seq<Attempt<GeoLocation>>,
    service: ServiceResponse,
    zoneHour: Option<Hour>,
    hostHour: Hour,
    localTime: string,
    undefinedError: string,
    displayUnits: Option<string>,
    displayLocation: Option<string>)

  /** Runs one load cycle from `s` with the given attributes. */
  function LoadWeatherData(s: WidgetState, locationAttr: Option<string>, unitsAttr: Option<string>,
                           env: Environment): (r: (Screen, WidgetState))
    ensures !Truthy(locationAttr) ==> r == (Unchanged, s)
    ensures r.0.ShowsWeather? <==> Truthy(locationAttr) && !NoneSucceeded(env.geocoders)
    ensures r.0.ShowsError? ==> r.1 == s && r.0.error.condition == "Unable to load"
    ensures r.0.ShowsWeather? ==> Truthy(r.1.currentTimezone)
    ensures r.0.ShowsWeather? ==>
      var c := r.0.weather;
      EndsWith(c.viewClass, NightSuffix) <==> IsNightHour(ClockHour(r.1.currentTimezone, env.zoneHour, env.hostHour))
    ensures r.0.ShowsWeather? ==> EndsWith(r.0.weather.temperature, UnitLabel(EffectiveUnits(env.displayUnits)))
    ensures r.0.ShowsWeather? ==> (r.0.requestedUnit == "fahrenheit" <==> EffectiveUnits(unitsAttr) == "F")
    ensures forall i | Truthy(locationAttr) && FirstSuccessAt(env.geocoders, i) ::
      var loc := env.geocoders[i].result.value;
      var f := FetchWeather(EffectiveUnits(unitsAttr), Some(ChooseTimezone(loc)), env.service);
      && r.1 == WidgetState(f.currentTimezone, loc.name)
      && r.0.ShowsWeather?
      && r.0.weather.location == LocationLine(loc.name)
      && r.0.weather.condition
         == DisplayLabel(f.data.condition.name, IsNightHour(ClockHour(r.1.currentTimezone, env.zoneHour, env.hostHour)))
      && r.0.weather.temperature == IntToString(f.data.temperature) + UnitLabel(EffectiveUnits(env.displayUnits))
    ensures r.0.ShowsError? ==>
      r.0.error.outside == "Error: " +
        (if |env.geocoders| > 0 && env.geocoders[|env.geocoders| - 1].Threw?
         then FailureMessage(locationAttr.value) else env.undefinedError)
  {
    var units := EffectiveUnits(unitsAttr);
    match LoadLocation(locationAttr, env.geocoders)
    case NoLocation => (Unchanged, s)
    case LoadFailed(message) =>
      (ShowsError(DisplayError(message, s.currentLocationName, env.displayLocation, env.localTime)), s)
    case UndefinedLocation =>
      (ShowsError(DisplayError(env.undefinedError, s.currentLocationName, env.displayLocation, env.localTime)), s)
    case Located(name, tz) =>
      var fetched := FetchWeather(units, Some(tz), env.service);
      var s' := WidgetState(fetched.currentTimezone, name);
      var night := IsNightTime(s'.currentTimezone, env.zoneHour, env.hostHour);
      (ShowsWeather(DisplayWeather(env.displayUnits, fetched.data, night, name, env.localTime), fetched.requestedUnit), s')
  }

  /** After a cycle that shows weather the kept timezone is set, so the
      night test reads the projected hour whenever the projection works,
      never the host clock. */
  lemma ShownWeatherUsesZoneHour(s: WidgetState, locationAttr: Option<string>, unitsAttr: Option<string>,
                                 env: Environment)
    requires env.zoneHour.Some?
    requires Truthy(locationAttr) && !NoneSucceeded(env.geocoders)
    ensures var s' := LoadWeatherData(s, locationAttr, unitsAttr, env).1;
      ClockHour(s'.currentTimezone, env.zoneHour, env.hostHour) == env.zoneHour.value
  {
  }

  /** With the three real geocoders, which throw rather than return nothing,
      a cycle for a set location always ends in the weather view or the
      aggregate geocoding error. */
  lemma RealGeocodersEndCleanly(s: WidgetState, locationAttr: Option<string>, unitsAttr: Option<string>,
                                env: Environment)
    requires Truthy(locationAttr) && |env.geocoders| > 0
    requires forall i | 0 <= i < |env.geocoders| :: env.geocoders[i].Threw? || Succeeded(env.geocoders[i])
    ensures var screen := LoadWeatherData(s, locationAttr, unitsAttr, env).0;
      screen.ShowsWeather? || (screen.ShowsError? && screen.error.outside == "Error: " + FailureMessage(locationAttr.value))
  {
    ThrowingProvidersNeverUndefined(locationAttr.value, env.geocoders);
  }

  /** The temperature is labelled with the unit the service was asked for
      whenever the `units` setting reads the same at fetch time and at
      display time. */
  lemma ShownUnitMatchesRequest(s: WidgetState, locationAttr: Option<string>, unitsAttr: Option<string>,
                                env: Environment)
    requires EffectiveUnits(env.displayUnits) == EffectiveUnits(unitsAttr)
    ensures var screen := LoadWeatherData(s, locationAttr, unitsAttr, env).0;
      screen.ShowsWeather? ==>
        (EndsWith(screen.weather.temperature, "°F") <==> screen.requestedUnit == "fahrenheit")
  {
  }

  /** When `units` reads "F" as the cycle starts and "C" when it displays,
      the cycle asks the service for Fahrenheit yet labels the reading °C. */
  lemma UnitChangeMidCycleMislabels(s: WidgetState, locationAttr: Option<string>, env: Environment)
    requires Truthy(locationAttr) && !NoneSucceeded(env.geocoders)
    requires env.displayUnits == Some("C")
    ensures var screen := LoadWeatherData(s, locationAttr, Some("F"), env).0;
      && screen.ShowsWeather?
      && screen.requestedUnit == "fahrenheit"
      && EndsWith(screen.weather.temperature, "°C")
  {
  }
}
